=== FILE: README.md ===
# Peer sessions of the Bluetooth chat app, in Dafny

This project models the peer-session bookkeeping of the chat app. The app has
two halves, and each is modelled as immutable records and pure transition
functions.

- **The Android native module `NearbyConnectionModule`** (`NearbyModule`). It keeps
  two guard flags, `isAdvertising` and `isDiscovering`, and the set
  `connectedEndpoints`. Every bridge method and every Nearby Connections
  callback is one step. A step returns the new state, the SDK commands it
  issues, the events it sends to JavaScript and how it settles the caller's
  promise. The SDK's asynchronous success and failure listeners are inputs of
  their own. So the environment picks the outcome of every SDK task. `Run`
  applies a trace of inputs, and the trace lemmas describe the flags and the
  endpoint set after any trace.
- **The chat screen `ChatPage`** (`ChatScreen`). It holds the list
  `connectedDevices`, which may contain duplicates, and the transcript. Its
  operations are the sequential broadcast loop, the `handleSend` gate,
  `clearScrollView` and the three native-event listeners. Each send's outcome
  is a parameter: `delivered[i]` for the i-th send.
- **The wire codec** `encodeBase64`/`decodeBase64` (`MessageCodec`). It is built
  from `JSON.stringify` of the `{username, text}` record (`MessageJson`, with
  the string escaping of section 25.5.2 of ECMA-262), then UTF-8 (`Utf8`), then
  base64 as in section 4 of RFC 4648 (`Base64`). All three layers are concrete,
  and each has a proved round-trip.
- **`Delivery`** chains the two halves: a broadcast send, the native
  `sendMessage`, the peer's `onPayloadReceived` and the peer screen's listener.

Behaviours of the code that the model reproduces:

- `ON_DEVICE_CONNECTED` is sent from `onConnectionInitiated`, before any
  connection result.
- A failed connection result only logs. It removes nothing.
- `onDisconnected` and `onEndpointFound` emit no event.
- `onEndpointFound` requests a connection but records nothing.
- No code path lowers a flag.
- The screen broadcasts to its own `connectedDevices` list, not to the native
  `connectedEndpoints` set.
- The native module never emits `ON_DEVICE_DISCOVERED` and has no
  `requestConnection` bridge method, so the listener's call at
  app/chat.tsx:164 would throw a TypeError rather than return a promise. The
  screen's discovery listener is modelled as its code reads, for the bridge
  method it expects, but nothing in the native module drives it.

## Model

| member | source | states |
|---|---|---|
| NearbyModule.StartAdvertising | android/app/src/main/java/com/anonymous/bluetoothchatapp/NearbyConnectrionModule.kt:40-59 | While advertising, the call is rejected with ADVERTISING_ERROR, issues no command and changes no state. Otherwise it issues stop-then-start advertising with the P2P_CLUSTER strategy and leaves the promise pending. Either way the flag is untouched. |
| NearbyModule.OnAdvertisingSuccess | android/app/src/main/java/com/anonymous/bluetoothchatapp/NearbyConnectrionModule.kt:60-63 | The success listener raises isAdvertising and resolves the promise. isDiscovering and the endpoint set stay as they were. |
| NearbyModule.OnAdvertisingFailure | android/app/src/main/java/com/anonymous/bluetoothchatapp/NearbyConnectrionModule.kt:64-66 | The failure listener rejects with ADVERTISING_ERROR and the exception message, or "Unknown error" when there is none. The whole state is unchanged. |
| NearbyModule.StartDiscovery | android/app/src/main/java/com/anonymous/bluetoothchatapp/NearbyConnectrionModule.kt:71-87 | Same guard as advertising, on isDiscovering, with DISCOVERY_ERROR. It issues stop-then-start discovery and never touches isAdvertising. |
| NearbyModule.OnDiscoverySuccess | android/app/src/main/java/com/anonymous/bluetoothchatapp/NearbyConnectrionModule.kt:88-91 | Raises isDiscovering only and resolves. |
| NearbyModule.OnDiscoveryFailure | android/app/src/main/java/com/anonymous/bluetoothchatapp/NearbyConnectrionModule.kt:92-94 | Rejects with DISCOVERY_ERROR. The whole state is unchanged. |
| NearbyModule.SendMessage | android/app/src/main/java/com/anonymous/bluetoothchatapp/NearbyConnectrionModule.kt:98-103 | Issues exactly one payload send to the given endpoint, and the body decodes back to the message. Neither the flags nor the endpoint set are read or changed. |
| NearbyModule.OnSendSuccess | android/app/src/main/java/com/anonymous/bluetoothchatapp/NearbyConnectrionModule.kt:104-106 | Resolves and changes nothing. |
| NearbyModule.OnSendFailure | android/app/src/main/java/com/anonymous/bluetoothchatapp/NearbyConnectrionModule.kt:107-109 | Rejects with SEND_MESSAGE_ERROR and the message, or "Message send failed" when there is none. Changes nothing. |
| NearbyModule.OnConnectionInitiated | android/app/src/main/java/com/anonymous/bluetoothchatapp/NearbyConnectrionModule.kt:113-122 | Always accepts. Emits exactly one ON_DEVICE_CONNECTED event carrying endpointId and deviceName. Leaves the endpoint set unchanged. |
| NearbyModule.OnConnectionResult | android/app/src/main/java/com/anonymous/bluetoothchatapp/NearbyConnectrionModule.kt:124-134 | The id is in the set afterwards iff the status is STATUS_OK or it was already there. No other id changes, and neither do the flags. |
| NearbyModule.OnDisconnected | android/app/src/main/java/com/anonymous/bluetoothchatapp/NearbyConnectrionModule.kt:136-139 | The id is absent afterwards and every other id is untouched. For an absent id this is a no-op. |
| NearbyModule.OnEndpointFound | android/app/src/main/java/com/anonymous/bluetoothchatapp/NearbyConnectrionModule.kt:143-150 | Requests a connection under the fixed name "CurrentUser". No state change and no event. |
| NearbyModule.OnEndpointLost | android/app/src/main/java/com/anonymous/bluetoothchatapp/NearbyConnectrionModule.kt:152-154 | Changes nothing and issues nothing. |
| NearbyModule.OnPayloadReceived | android/app/src/main/java/com/anonymous/bluetoothchatapp/NearbyConnectrionModule.kt:159-168 | Emits one ON_MESSAGE_RECEIVED event, with the UTF-8 decoded body, exactly when the payload has a byte body. Otherwise it emits nothing. The state is unchanged either way. |
| NearbyModule.Apply | android/app/src/main/java/com/anonymous/bluetoothchatapp/NearbyConnectrionModule.kt:14-16 | Across every input, no flag falls. A flag rises only on its own success listener. The endpoint set changes only on a connection result or a disconnect. Events come only from connection initiation and payloads. |
| NearbyModule.AdvertisingIff | android/app/src/main/java/com/anonymous/bluetoothchatapp/NearbyConnectrionModule.kt:40-66 | After any trace, isAdvertising holds iff it held initially or the trace contains an advertising success, so the flag is monotone. |
| NearbyModule.DiscoveringIff | android/app/src/main/java/com/anonymous/bluetoothchatapp/NearbyConnectrionModule.kt:71-94 | The same statement for isDiscovering and discovery success. |
| NearbyModule.ConnectedIff | android/app/src/main/java/com/anonymous/bluetoothchatapp/NearbyConnectrionModule.kt:124-139 | After any trace, an id is connected iff some OK result for it, or its initial presence, is followed by no disconnect of it. |
| NearbyModule.GuardAfterSuccess | android/app/src/main/java/com/anonymous/bluetoothchatapp/NearbyConnectrionModule.kt:40-44 | Once a success of either kind is in the trace, every later start of that kind is rejected with no command and no state change. |
| NearbyModule.StartRaceBeforeCallback | android/app/src/main/java/com/anonymous/bluetoothchatapp/NearbyConnectrionModule.kt:40-63 | The guard reads a flag that only the success listener sets. So two starts issued before the first completes both send the start command. |
| Utf8.Encode | app/chat.tsx:293 | Each scalar value takes one to four bytes. |
| Utf8.Decode | app/chat.tsx:297 | Total decoding: it never yields more characters than there are bytes. |
| Utf8.DecodeEncode | app/chat.tsx:291-299 | UTF-8 decoding undoes encoding for every string. |
| Base64.CharOf | app/chat.tsx:293 | The RFC 4648 alphabet is inverted by ValueOf. |
| Base64.Encode | app/chat.tsx:293 | The output is four characters per started three-byte group. |
| Base64.Decode | app/chat.tsx:297 | Success implies the length is a multiple of four. |
| Base64.DecodeEncode | app/chat.tsx:291-299 | Base64 decoding undoes encoding for every byte sequence, padding included. |
| MessageJson.EscapeChar | app/chat.tsx:292 | Exactly quote, backslash and control characters are escaped, and no escape starts with a quote. |
| MessageJson.Stringify | app/chat.tsx:292 | The text starts with the username key, in the literal's key order. |
| MessageJson.Parse | app/chat.tsx:298 | A record is read only from text that opens with the username key and ends with the closing brace. |
| MessageJson.ParseStringify | app/chat.tsx:291-299 | Parsing the stringified record gives the record back. |
| MessageCodec.EncodeBase64 | app/chat.tsx:291-294 | The payload is padded to a multiple of four characters. |
| MessageCodec.DecodeBase64 | app/chat.tsx:296-299 | Success implies a correctly padded payload. |
| MessageCodec.DecodeEncode | app/chat.tsx:291-299 | decodeBase64(encodeBase64(m)) == m for every {username, text} record. |
| MessageCodec.EncodeInjective | app/chat.tsx:291-294 | Distinct records never share a payload. |
| ChatScreen.OwnLine | app/chat.tsx:205 | The sender's line is the username, then " (You): ", then the message, character for character. |
| ChatScreen.ReceivedLine | app/chat.tsx:151 | A received line is the username, then ": ", then the text, character for character. |
| ChatScreen.Keep | app/chat.tsx:201 | The filter removes every occurrence of a dropped id and keeps every occurrence of every other id, with multiplicities. |
| ChatScreen.KeepKeep | app/chat.tsx:198-203 | Successive evictions equal one eviction by the union of the ids. |
| ChatScreen.SendAll | app/chat.tsx:192-197 | Exactly one send per snapshot entry, to that entry, in list order, with the same payload. A failure never stops the loop. |
| ChatScreen.SendAllEvicts | app/chat.tsx:192-204 | After the loop the list is the starting list with all failed ids filtered out. Successful sends change nothing. |
| ChatScreen.SendsCarry | app/chat.tsx:192-197 | Each send of the loop goes to its snapshot entry with a payload that decodes to the broadcast record. |
| ChatScreen.Broadcast | app/chat.tsx:184-210 | Every send carries a payload that decodes to {username, message}. The list keeps exactly the never-failed ids. "<username> (You): <message>" is appended exactly once. Username and input are unchanged. |
| ChatScreen.BroadcastIsolatesFailures | app/chat.tsx:192-204 | A failed id is absent afterwards. An id none of whose sends failed keeps all its occurrences. |
| ChatScreen.BroadcastAllDelivered | app/chat.tsx:192-205 | When all sends succeed, only the transcript changes. |
| ChatScreen.TrimStart | app/chat.tsx:213 | Removes exactly the maximal leading run of ECMAScript white space. |
| ChatScreen.TrimEnd | app/chat.tsx:213 | Removes exactly the maximal trailing run of ECMAScript white space. |
| ChatScreen.Trim | app/chat.tsx:213 | A non-empty result neither starts nor ends with white space. |
| ChatScreen.TrimSlice | app/chat.tsx:213 | input.trim() is the run of the input that follows the removed leading white space, character for character. |
| ChatScreen.TrimDropsTrailing | app/chat.tsx:213 | Everything input.trim() drops after the run it keeps is white space. |
| ChatScreen.TrimEmptyIff | app/chat.tsx:213 | input.trim() is empty iff every character is white space or a line terminator. |
| ChatScreen.HandleSend | app/chat.tsx:212-217 | A blank input (white space only) changes nothing and sends nothing. Otherwise the untrimmed input is broadcast, with the sends and list of ChatScreen.Broadcast, the own line is appended, the username is kept and the box is cleared. |
| ChatScreen.ClearScrollView | app/chat.tsx:219-221 | Empties the transcript and nothing else. |
| ChatScreen.OnDeviceConnected | app/chat.tsx:135-141 | Appends the id without de-duplication: its count rises by one and the old list is a prefix. |
| ChatScreen.OnMessageReceived | app/chat.tsx:144-154 | The listener fails, with no screen update, exactly when the model's strict decoding fails: on every payload the source throws on, and also on non-canonical JSON and on base64 text that `Buffer.from` accepts but strict decoding refuses: missing padding, white space, characters outside the alphabet, text after the first `=`. A decoded record with both fields non-empty appends "username: text". One with an empty field leaves the screen unchanged. Nothing but the transcript ever changes. |
| ChatScreen.OnDeviceDiscovered | app/chat.tsx:156-175 | A connection is requested iff the id is not in the list consulted. Only a successful request appends the id. Nothing else changes. |
| ChatScreen.ReconnectListedTwice | app/chat.tsx:135-141 | Two ON_DEVICE_CONNECTED events for one peer, as a reconnect produces, list it twice more. |
| ChatScreen.DuplicateEntry | app/chat.tsx:135-172 | A peer reported connected and then discovered is listed twice. No native code emits the discovery event, so this path is latent. |
| Delivery.BroadcastReachesPeer | app/chat.tsx:192-205 | Each delivered broadcast send, passed through native send and receive, shows "username: text" on the receiving screen. Its device list and the peer's native state are untouched. |
| Delivery.MalformedPayloadThrows | android/app/src/main/java/com/anonymous/bluetoothchatapp/NearbyConnectrionModule.kt:159-168 | An undecodable payload is forwarded as one event with the peer's state unchanged, and the receiving screen's listener fails on it, as the source's throws when decoding fails. |

## Left out

- Permission prompting, username loading from AsyncStorage and the
  initialization effect (app/chat.tsx:29-131). These are OS and storage I/O.
  The username is a field of the screen record.
- Rendering, styles and scrolling (app/chat.tsx:223-406), and the other
  screens and the navigation layout. These are UI only.
- The package registration class, `sendEvent`, the lifecycle hooks and
  `addListener`/`removeListeners`. These are bridge plumbing with empty or
  forwarding bodies. An event in a step's `events` is what `sendEvent` would
  emit.
- `getName` and `onPayloadTransferUpdate`. One returns a constant and the
  other has an empty body.
- The Nearby SDK. Its calls are `Command` values, and its task outcomes and
  status codes are inputs or parameters. Logging is dropped.
- Asynchrony. Each callback and each `set(prev => ...)` update is one atomic
  step. The sends of a broadcast are modelled in loop order. No interleaving
  with other events is modelled.
- ChatScreen.OnDeviceDiscovered: takes the consulted list as a parameter, `known`.
  In the source this is the stale list captured when the listeners were
  installed, not the current one.
- MessageCodec.DecodeBase64: accepts fewer inputs than the source. `Buffer.from(s, 'base64')`
  skips characters outside the alphabet and tolerates missing padding, and
  `JSON.parse` accepts whitespace, other key orders, extra keys and
  non-string values. The model fails on all of these. A failure stands for
  the exception the source throws out of the listener. For the inputs above
  the source may not throw, which is why this contract is weaker.
- ChatScreen.OnMessageReceived: its `Failure` also covers the non-canonical
  JSON listed for MessageCodec.DecodeBase64, and base64 text that
  `Buffer.from` accepts but strict decoding refuses: missing padding, white
  space, characters outside the alphabet, text after the first `=`. There
  the source returns normally: a parsed array or object without a
  `username` field appends nothing, while reordered keys or leniently
  decoded base64 of a full record still append the line.
- Delivery.MalformedPayloadThrows: its precondition also admits bodies that
  are non-canonical JSON, such as `[1]`, and bodies that are base64 text
  `Buffer.from` accepts but strict decoding refuses: missing padding, white
  space, characters outside the alphabet, text after the first `=`. For
  those the source's listener returns normally instead of throwing, for the
  reason given for ChatScreen.OnMessageReceived.
- MessageJson.Parse: reads only the exact object shape `JSON.stringify` writes. A `\u`
  escape naming a surrogate is refused, because a Dafny char is a Unicode
  scalar value.
- Base64.Decode: strict. Bits left over in the last quantum are ignored rather
  than checked.
- Utf8.Decode: emits one U+FFFD per byte that starts no well-formed sequence, as
  the `buffer` package's decoder (app/chat.tsx:2) does. The native module's
  `String(bytes)` (NearbyConnectrionModule.kt:161) may group such bytes
  differently.
- JavaScript strings are UTF-16 and may hold lone surrogates. The model's
  strings are sequences of Unicode scalar values.

=== FILE: base64.dfy ===
/** The base64 alphabet and padding of section 4 of RFC 4648, as produced by
    `Buffer.toString('base64')` and read back by `Buffer.from(s, 'base64')`. */
module Base64 {
  import opened Wrappers
  import opened Bytes

  const PAD: char := '='

  /** The alphabet of Table 1: A-Z, a-z, 0-9, '+', '/'. */
  function CharOf(v: int): (c: char)
    requires 0 <= v < 64
    ensures ValueOf(c) == Some(v)
  {
    if v < 26 then ('A' as int + v) as char
    else if v < 52 then ('a' as int + (v - 26)) as char
    else if v < 62 then ('0' as int + (v - 52)) as char
    else if v == 62 then '+'
    else '/'
  }

  /** The 6-bit value a character stands for, or None outside the alphabet
      (the pad character included). */
  function ValueOf(c: char): (r: Option<int>)
    ensures r.Some? ==> 0 <= r.value < 64 && c != PAD
  {
    if 'A' <= c <= 'Z' then Some(c as int - 'A' as int)
    else if 'a' <= c <= 'z' then Some(c as int - 'a' as int + 26)
    else if '0' <= c <= '9' then Some(c as int - '0' as int + 52)
    else if c == '+' then Some(62)
    else if c == '/' then Some(63)
    else None
  }

  /** Every 24-bit group becomes four characters; a final group of one or two
      bytes is zero-filled and padded with "==" or "=". */
  function Encode(b: seq<byte>): (r: string)
    ensures |r| == 4 * ((|b| + 2) / 3)
    decreases |b|
  {
    if |b| == 0 then []
    else if |b| == 1 then
      [CharOf(b[0] / 4), CharOf((b[0] % 4) * 16), PAD, PAD]
    else if |b| == 2 then
      [CharOf(b[0] / 4), CharOf((b[0] % 4) * 16 + b[1] / 16), CharOf((b[1] % 16) * 4), PAD]
    else
      EncodeGroup(b[0], b[1], b[2]) + Encode(b[3..])
  }

  /** Decodes one quantum of four characters to one, two or three bytes. */
  function DecodeQuad(q: string): (r: Result<seq<byte>>)
    requires |q| == 4
    ensures r.Success? ==> 1 <= |r.value| <= 3
  {
    match (ValueOf(q[0]), ValueOf(q[1]), ValueOf(q[2]), ValueOf(q[3]))
    case (Some(c0), Some(c1), Some(c2), Some(c3)) =>
      Success([c0 * 4 + c1 / 16, (c1 % 16) * 16 + c2 / 4, (c2 % 4) * 64 + c3])
    case (Some(c0), Some(c1), Some(c2), None) =>
      if q[3] == PAD then Success([c0 * 4 + c1 / 16, (c1 % 16) * 16 + c2 / 4])
      else Failure("character outside the base64 alphabet")
    case (Some(c0), Some(c1), None, None) =>
      if q[2] == PAD && q[3] == PAD then Success([c0 * 4 + c1 / 16])
      else Failure("character outside the base64 alphabet")
    case _ => Failure("character outside the base64 alphabet")
  }

  /** Strict decoding: the length is a multiple of four and padding may only
      close the last quantum. */
  function Decode(s: string): (r: Result<seq<byte>>)
    ensures r.Success? ==> |s| % 4 == 0
    decreases |s|
  {
    if |s| == 0 then Success([])
    else if |s| < 4 then Failure("truncated base64 quantum")
    else
      var quad, rest := s[..4], s[4..];
      assert |quad| == 4 && |rest| == |s| - 4;
      var head :- DecodeQuad(quad);
      if |rest| > 0 && |head| < 3 then Failure("padding before the end of the data")
      else
        var tail :- Decode(rest);
        Success(head + tail)
  }

  /** The four characters of a full group. */
  function EncodeGroup(b0: byte, b1: byte, b2: byte): (r: string)
  {
    [CharOf(b0 / 4), CharOf((b0 % 4) * 16 + b1 / 16),
     CharOf((b1 % 16) * 4 + b2 / 64), CharOf(b2 % 64)]
  }

  lemma DecodeGroup(b0: byte, b1: byte, b2: byte)
    ensures DecodeQuad(EncodeGroup(b0, b1, b2)) == Success([b0, b1, b2])
  {
    var c1 := (b0 % 4) * 16 + b1 / 16;
    var c2 := (b1 % 16) * 4 + b2 / 64;
    assert c1 / 16 == b0 % 4 && c1 % 16 == b1 / 16;
    assert c2 / 4 == b1 % 16 && c2 % 4 == b2 / 64;
  }

  /** A final single byte survives its "==" quantum. */
  lemma DecodeSingle(b0: byte)
    ensures Decode(Encode([b0])) == Success([b0])
  {
    var c1 := (b0 % 4) * 16;
    assert c1 / 16 == b0 % 4;
    var q := Encode([b0]);
    assert q[..4] == q && q[4..] == [];
    assert DecodeQuad(q) == Success([b0]);
    assert Decode(q[4..]) == Success([]);
    assert [b0] + [] == [b0];
  }

  /** A final pair of bytes survives its "=" quantum. */
  lemma DecodePair(b0: byte, b1: byte)
    ensures Decode(Encode([b0, b1])) == Success([b0, b1])
  {
    var c1 := (b0 % 4) * 16 + b1 / 16;
    var c2 := (b1 % 16) * 4;
    assert c1 / 16 == b0 % 4 && c1 % 16 == b1 / 16;
    assert c2 / 4 == b1 % 16;
    var q := Encode([b0, b1]);
    assert q == [CharOf(b0 / 4), CharOf(c1), CharOf(c2), PAD];
    assert q[..4] == q && q[4..] == [];
    assert DecodeQuad(q) == Success([b0, b1]);
    assert Decode(q[4..]) == Success([]);
    assert [b0, b1] + [] == [b0, b1];
  }

  /** Decoding undoes encoding for every byte sequence. */
  lemma {:induction false} DecodeEncode(b: seq<byte>)
    ensures Decode(Encode(b)) == Success(b)
  {
    if |b| >= 3 {
      var rest := b[3..];
      DecodeEncode(rest);
      EncodeLong(b);
      DecodeGroupThen(b[0], b[1], b[2], Encode(rest), rest);
      assert [b[0], b[1], b[2]] + rest == b;
    } else if |b| > 0 {
      DecodeEncodeShort(b);
    }
  }

  /** A final quantum of one or two bytes survives its padding. */
  lemma DecodeEncodeShort(b: seq<byte>)
    requires 1 <= |b| <= 2
    ensures Decode(Encode(b)) == Success(b)
  {
    if |b| == 1 {
      var b0 := b[0];
      assert b == [b0];
      DecodeSingle(b0);
    } else {
      var b0, b1 := b[0], b[1];
      assert b == [b0, b1];
      DecodePair(b0, b1);
    }
  }

  /** Three or more bytes encode as their first group, then the rest. */
  lemma EncodeLong(b: seq<byte>)
    requires |b| >= 3
    ensures Encode(b) == EncodeGroup(b[0], b[1], b[2]) + Encode(b[3..])
  {
  }

  /** A full group followed by decodable text decodes to its three bytes
      followed by what that text decodes to. */
  lemma DecodeGroupThen(b0: byte, b1: byte, b2: byte, tail: string, rest: seq<byte>)
    requires Decode(tail) == Success(rest)
    ensures Decode(EncodeGroup(b0, b1, b2) + tail) == Success([b0, b1, b2] + rest)
  {
    var e := EncodeGroup(b0, b1, b2) + tail;
    assert e[..4] == EncodeGroup(b0, b1, b2);
    assert e[4..] == tail;
    DecodeGroup(b0, b1, b2);
  }
}

=== FILE: bytes.dfy ===
/** Octets as the transport carries them and the codecs produce them. */
module Bytes {

  /** One octet, 0 to 255; a Kotlin `Byte` reinterpreted unsigned. */
  type byte = x: int | 0 <= x < 256
}

=== FILE: chat_screen.dfy ===
/** The peer bookkeeping of the chat screen (`ChatPage` in app/chat.tsx): the
    list of connected device ids, the sequential broadcast that evicts peers
    whose send fails, the gate on the input box, and the native-event
    listeners. React state updates `set(prev => ...)` are read as ordered,
    atomic list operations; the outcome of each native call is a parameter. */
module ChatScreen {
  import opened Wrappers
  import opened MessageJson
  import opened MessageCodec

  datatype Screen = Screen(
    username: string,
    messages: seq<string>,
    input: string,
    connectedDevices: seq<string>)

  /** The username before storage has been read. */
  const DEFAULT_USERNAME: string := "Anonymous"

  const Mounted: Screen := Screen(DEFAULT_USERNAME, [], "", [])

  /** One call of `NearbyConnectionModule.sendMessage(endpointId, message)`. */
  datatype SendRequest = SendRequest(endpointId: string, message: string)

  /** The screen after a broadcast and the sends it issued, in order. */
  datatype Outcome = Outcome(screen: Screen, sends: seq<SendRequest>)

  /** What the discovery listener did: the screen after it, and whether it
      asked the native module for a connection. */
  datatype Discovery = Discovery(screen: Screen, requested: bool)

  /** The line the sender shows for its own message. */
  function OwnLine(username: string, message: string): (r: string)
    ensures |r| == |username| + 8 + |message|
    ensures username <= r && r[|username|..|username| + 8] == " (You): " && r[|username| + 8..] == message
  {
    username + " (You): " + message
  }

  /** The line shown for a message received from a peer. */
  function ReceivedLine(m: DecodedMessage): (r: string)
    ensures |r| == |m.username| + 2 + |m.text|
    ensures m.username <= r && r[|m.username|..|m.username| + 2] == ": " && r[|m.username| + 2..] == m.text
  {
    m.username + ": " + m.text
  }

  // ---- the device list ----------------------------------------------------

  /** `devices.filter(id => !dropped.has(id))`: every occurrence of a dropped
      id goes, every occurrence of any other id stays, in order. */
  function Keep(devices: seq<string>, dropped: set<string>): (r: seq<string>)
    ensures forall x :: x in r <==> x in devices && x !in dropped
    ensures forall x :: multiset(r)[x] == if x in dropped then 0 else multiset(devices)[x]
  {
    if |devices| == 0 then []
    else
      var tail := Keep(devices[1..], dropped);
      assert devices == [devices[0]] + devices[1..];
      if devices[0] in dropped then tail else [devices[0]] + tail
  }

  lemma {:induction false} KeepNothing(devices: seq<string>)
    ensures Keep(devices, {}) == devices
  {
    if |devices| > 0 {
      assert Keep(devices, {}) == [devices[0]] + Keep(devices[1..], {});
      KeepNothing(devices[1..]);
      assert devices == [devices[0]] + devices[1..];
    }
  }

  /** Two filters in a row are one filter by the union. */
  lemma {:induction false} KeepKeep(devices: seq<string>, a: set<string>, b: set<string>)
    ensures Keep(Keep(devices, a), b) == Keep(devices, a + b)
  {
    if |devices| > 0 {
      KeepKeep(devices[1..], a, b);
    }
  }

  /** The ids whose send failed. */
  function FailedIds(snapshot: seq<string>, delivered: seq<bool>): (r: set<string>)
    requires |delivered| == |snapshot|
    ensures forall i :: 0 <= i < |snapshot| && !delivered[i] ==> snapshot[i] in r
    ensures forall x :: x in r ==> x in snapshot
  {
    set i | 0 <= i < |snapshot| && !delivered[i] :: snapshot[i]
  }

  lemma FailedIdsCons(snapshot: seq<string>, delivered: seq<bool>)
    requires |delivered| == |snapshot| > 0
    ensures FailedIds(snapshot, delivered)
      == (if delivered[0] then {} else {snapshot[0]}) + FailedIds(snapshot[1..], delivered[1..])
  {
    var whole := FailedIds(snapshot, delivered);
    var rest := FailedIds(snapshot[1..], delivered[1..]);
    forall x | x in rest ensures x in whole {
      var i :| 0 <= i < |snapshot| - 1 && !delivered[1..][i] && snapshot[1..][i] == x;
      assert snapshot[i + 1] == x && !delivered[i + 1];
    }
    forall x | x in whole ensures x in rest || (!delivered[0] && x == snapshot[0]) {
      var i :| 0 <= i < |snapshot| && !delivered[i] && snapshot[i] == x;
      if i > 0 {
        assert snapshot[1..][i - 1] == x && !delivered[1..][i - 1];
      }
    }
  }

  // ---- broadcast ----------------------------------------------------------

  /** What the send loop leaves: the device list after its evictions and the
      sends it made, in order. */
  datatype Sweep = Sweep(devices: seq<string>, sends: seq<SendRequest>)

  /** The loop of `broadcastMessage`: one send per entry of the snapshot, in
      order; a failed send evicts that id from the current list and the loop
      goes on. `delivered[i]` is the outcome of the i-th send. */
  function SendAll(snapshot: seq<string>, payload: string, delivered: seq<bool>, devices: seq<string>)
    : (r: Sweep)
    requires |delivered| == |snapshot|
    ensures |r.sends| == |snapshot|
    ensures forall i :: 0 <= i < |snapshot| ==> r.sends[i] == SendRequest(snapshot[i], payload)
    decreases |snapshot|
  {
    if |snapshot| == 0 then
      Sweep(devices, [])
    else
      var current := if delivered[0] then devices else Keep(devices, {snapshot[0]});
      var rest := SendAll(snapshot[1..], payload, delivered[1..], current);
      Sweep(rest.devices, [SendRequest(snapshot[0], payload)] + rest.sends)
  }

  /** The list the loop leaves behind is the list it started from with every
      failed id filtered out, however the failures are spread. */
  lemma {:induction false} SendAllEvicts(snapshot: seq<string>, payload: string, delivered: seq<bool>, devices: seq<string>)
    requires |delivered| == |snapshot|
    ensures SendAll(snapshot, payload, delivered, devices).devices == Keep(devices, FailedIds(snapshot, delivered))
    decreases |snapshot|
  {
    if |snapshot| == 0 {
      KeepNothing(devices);
      assert FailedIds(snapshot, delivered) == {};
    } else {
      var rest := FailedIds(snapshot[1..], delivered[1..]);
      FailedIdsCons(snapshot, delivered);
      if delivered[0] {
        SendAllEvicts(snapshot[1..], payload, delivered[1..], devices);
        assert FailedIds(snapshot, delivered) == rest;
      } else {
        var current := Keep(devices, {snapshot[0]});
        SendAllEvicts(snapshot[1..], payload, delivered[1..], current);
        KeepKeep(devices, {snapshot[0]}, rest);
        assert FailedIds(snapshot, delivered) == {snapshot[0]} + rest;
      }
    }
  }

  /** Each send of the loop goes to its entry of the snapshot and carries a
      payload that decodes to the record. */
  lemma SendsCarry(snapshot: seq<string>, m: DecodedMessage, delivered: seq<bool>, devices: seq<string>)
    requires |delivered| == |snapshot|
    ensures var sends := SendAll(snapshot, EncodeBase64(m), delivered, devices).sends;
      forall i :: 0 <= i < |sends| ==>
        sends[i].endpointId == snapshot[i] && DecodeBase64(sends[i].message) == Success(m)
  {
    MessageCodec.DecodeEncode(m);
  }

  /** `broadcastMessage(message)`: sends the encoded record to every id of
      the list as it stood at the call, keeps exactly the ids none of whose
      sends failed, and appends the sender's own line once whatever the
      outcomes. */
  function Broadcast(screen: Screen, message: string, delivered: seq<bool>): (r: Outcome)
    requires |delivered| == |screen.connectedDevices|
    ensures |r.sends| == |screen.connectedDevices|
    ensures forall i :: 0 <= i < |r.sends| ==>
      r.sends[i].endpointId == screen.connectedDevices[i]
      && DecodeBase64(r.sends[i].message) == Success(DecodedMessage(screen.username, message))
    ensures r.screen.connectedDevices == Keep(screen.connectedDevices, FailedIds(screen.connectedDevices, delivered))
    ensures r.screen.messages == screen.messages + [OwnLine(screen.username, message)]
    ensures r.screen.username == screen.username && r.screen.input == screen.input
  {
    var payload := EncodeBase64(DecodedMessage(screen.username, message));
    var sent := SendAll(screen.connectedDevices, payload, delivered, screen.connectedDevices);
    SendsCarry(screen.connectedDevices, DecodedMessage(screen.username, message), delivered, screen.connectedDevices);
    SendAllEvicts(screen.connectedDevices, payload, delivered, screen.connectedDevices);
    Outcome(
      screen.(connectedDevices := sent.devices, messages := screen.messages + [OwnLine(screen.username, message)]),
      sent.sends)
  }

  /** One peer's failure costs that peer only: every failed id is gone from
      the list, every id with no failed send keeps all its occurrences. */
  lemma BroadcastIsolatesFailures(screen: Screen, message: string, delivered: seq<bool>)
    requires |delivered| == |screen.connectedDevices|
    ensures var after := Broadcast(screen, message, delivered).screen.connectedDevices;
      && (forall i :: 0 <= i < |delivered| && !delivered[i] ==> screen.connectedDevices[i] !in after)
      && (forall x :: x in screen.connectedDevices
            && (forall i :: 0 <= i < |delivered| && screen.connectedDevices[i] == x ==> delivered[i])
            ==> multiset(after)[x] == multiset(screen.connectedDevices)[x])
  {
  }

  /** When every send succeeds the list is left exactly as it was. */
  lemma BroadcastAllDelivered(screen: Screen, message: string, delivered: seq<bool>)
    requires |delivered| == |screen.connectedDevices|
    requires forall i :: 0 <= i < |delivered| ==> delivered[i]
    ensures Broadcast(screen, message, delivered).screen == screen.(messages := screen.messages + [OwnLine(screen.username, message)])
  {
    assert FailedIds(screen.connectedDevices, delivered) == {};
    KeepNothing(screen.connectedDevices);
  }

  // ---- the input box --------------------------------------------------------

  /** The characters `String.prototype.trim` removes: white space and line
      terminators of sections 12.2 and 12.3 of ECMA-262. */
  predicate IsJsWhitespace(c: char) {
    var cp := c as int;
    || cp == 0x09 || cp == 0x0A || cp == 0x0B || cp == 0x0C || cp == 0x0D || cp == 0x20
    || cp == 0xA0 || cp == 0x1680 || (0x2000 <= cp <= 0x200A) || cp == 0x2028 || cp == 0x2029
    || cp == 0x202F || cp == 0x205F || cp == 0x3000 || cp == 0xFEFF
  }

  function TrimStart(s: string): (r: string)
    ensures |r| <= |s| && r == s[|s| - |r|..]
    ensures forall i {:trigger IsJsWhitespace(s[i])} :: 0 <= i < |s| - |r| ==> IsJsWhitespace(s[i])
    ensures r != [] ==> !IsJsWhitespace(r[0])
  {
    if |s| > 0 && IsJsWhitespace(s[0]) then TrimStart(s[1..]) else s
  }

  function TrimEnd(s: string): (r: string)
    ensures |r| <= |s| && r == s[..|r|]
    ensures forall i {:trigger IsJsWhitespace(s[i])} :: |r| <= i < |s| ==> IsJsWhitespace(s[i])
    ensures r != [] ==> !IsJsWhitespace(r[|r| - 1])
  {
    if |s| > 0 && IsJsWhitespace(s[|s| - 1]) then TrimEnd(s[..|s| - 1]) else s
  }

  /** `s.trim()`: the slice of `s` left after dropping white space at both
      ends; it neither starts nor ends with white space. */
  function Trim(s: string): (r: string)
    ensures r != [] ==> !IsJsWhitespace(r[0]) && !IsJsWhitespace(r[|r| - 1])
  {
    var t := TrimStart(s);
    var r := TrimEnd(t);
    assert r != [] ==> r[0] == t[0];
    r
  }

  /** What `trim` keeps is the run of `s` that follows the white space it
      removes at the front, character for character. */
  lemma TrimSlice(s: string)
    ensures var r, a := Trim(s), |s| - |TrimStart(s)|;
      && a + |r| <= |s|
      && (forall k :: 0 <= k < |r| ==> r[k] == s[a + k])
      && (forall i {:trigger IsJsWhitespace(s[i])} :: 0 <= i < a ==> IsJsWhitespace(s[i]))
  {
    var t := TrimStart(s);
    var r := TrimEnd(t);
    assert r == Trim(s);
    PrefixOfSuffix(s, t, r);
  }

  /** What `trim` removes after the run it keeps is white space. */
  lemma TrimDropsTrailing(s: string)
    ensures var r, a := Trim(s), |s| - |TrimStart(s)|;
      forall i {:trigger IsJsWhitespace(s[i])} :: a + |r| <= i < |s| ==> IsJsWhitespace(s[i])
  {
    var t := TrimStart(s);
    var r := TrimEnd(t);
    assert r == Trim(s);
    TailOfSuffix(s, t, |r|, IsJsWhitespace);
  }

  /** Whatever holds of the tail of a suffix `t` of `s` holds of the same
      tail of `s`. */
  lemma TailOfSuffix<T>(s: seq<T>, t: seq<T>, n: nat, p: T -> bool)
    requires |t| <= |s| && t == s[|s| - |t|..] && n <= |t|
    requires forall i :: n <= i < |t| ==> p(t[i])
    ensures forall i :: |s| - |t| + n <= i < |s| ==> p(s[i])
  {
    forall i | |s| - |t| + n <= i < |s|
      ensures p(s[i])
    {
      assert s[i] == t[i - (|s| - |t|)];
    }
  }

  /** A prefix `r` of a suffix `t` of `s` sits in `s` where `t` starts, and
      the rest of `s` after it is the rest of `t` after it. */
  lemma PrefixOfSuffix<T>(s: seq<T>, t: seq<T>, r: seq<T>)
    requires |t| <= |s| && t == s[|s| - |t|..]
    requires |r| <= |t| && r == t[..|r|]
    ensures |s| - |t| + |r| <= |s|
    ensures forall k :: 0 <= k < |r| ==> r[k] == s[|s| - |t| + k]
    ensures forall i :: |s| - |t| + |r| <= i < |s| ==> s[i] == t[i - (|s| - |t|)]
  {
  }

  /** `input.trim()` is empty exactly when the input is all white space. */
  lemma TrimEmptyIff(s: string)
    ensures Trim(s) == [] <==> forall i :: 0 <= i < |s| ==> IsJsWhitespace(s[i])
  {
    var t := TrimStart(s);
    assert t != [] ==> t[0] == s[|s| - |t|] && !IsJsWhitespace(t[0]);
    assert t != [] ==> TrimEnd(t) != [] by {
      if t != [] { assert !IsJsWhitespace(t[0]); }
    }
  }

  /** `handleSend`: a blank input changes nothing and sends nothing;
      otherwise the untrimmed input is broadcast and the box cleared. */
  function HandleSend(screen: Screen, delivered: seq<bool>): (r: Outcome)
    requires |delivered| == |screen.connectedDevices|
    ensures (forall i :: 0 <= i < |screen.input| ==> IsJsWhitespace(screen.input[i])) ==> r == Outcome(screen, [])
    ensures (exists i :: 0 <= i < |screen.input| && !IsJsWhitespace(screen.input[i])) ==>
      && r.screen.input == ""
      && r.screen.username == screen.username
      && r.screen.messages == screen.messages + [OwnLine(screen.username, screen.input)]
      && r.screen.connectedDevices == Keep(screen.connectedDevices, FailedIds(screen.connectedDevices, delivered))
      && r.sends == Broadcast(screen, screen.input, delivered).sends
  {
    TrimEmptyIff(screen.input);
    if Trim(screen.input) != [] then
      var sent := Broadcast(screen, screen.input, delivered);
      sent.(screen := sent.screen.(input := ""))
    else
      Outcome(screen, [])
  }

  /** `clearScrollView`: the transcript is emptied; nothing else changes. */
  function ClearScrollView(screen: Screen): (r: Screen)
    ensures r.messages == []
    ensures r.username == screen.username && r.input == screen.input
    ensures r.connectedDevices == screen.connectedDevices
  {
    screen.(messages := [])
  }

  // ---- native-event listeners -----------------------------------------------

  /** The `ON_DEVICE_CONNECTED` listener appends the id with no check for a
      copy already in the list. */
  function OnDeviceConnected(screen: Screen, endpointId: string): (r: Screen)
    ensures |r.connectedDevices| == |screen.connectedDevices| + 1
    ensures multiset(r.connectedDevices)[endpointId] == multiset(screen.connectedDevices)[endpointId] + 1
    ensures r.connectedDevices[..|screen.connectedDevices|] == screen.connectedDevices
    ensures r.(connectedDevices := screen.connectedDevices) == screen
  {
    screen.(connectedDevices := screen.connectedDevices + [endpointId])
  }

  /** The `ON_MESSAGE_RECEIVED` listener. The listener has no handler
      around the decoding: a payload that is not the JSON text of an object
      makes `JSON.parse`, or the field access on its result, throw out of the
      listener, so no state update happens. That throw is the `Failure` case.
      A record with a non-empty username and a non-empty text adds one line;
      a record with an empty field leaves the screen as it was. */
  function OnMessageReceived(screen: Screen, message: string): (r: Result<Screen>)
    ensures DecodeBase64(message).Failure? <==> r.Failure?
    ensures r.Success? ==> r.value.(messages := screen.messages) == screen
    ensures var d := DecodeBase64(message);
      d.Success? ==>
        if d.value.username != "" && d.value.text != "" then
          r.value.messages == screen.messages + [ReceivedLine(d.value)]
        else
          r.value == screen
  {
    match DecodeBase64(message)
    case Success(m) =>
      if m.username != "" && m.text != "" then Success(screen.(messages := screen.messages + [ReceivedLine(m)]))
      else Success(screen)
    case Failure(e) => Failure("listener threw: " + e)
  }

  /** The `ON_DEVICE_DISCOVERED` listener as its code reads. `known` is the
      device list the listener consults, which in the source is the one
      captured when the listeners were installed; `requestSucceeded` is the
      outcome of the connection request. The native module exposes no
      `requestConnection` bridge method, so in the app as built the call
      would throw a TypeError and neither outcome occurs; the listener is
      modelled for the bridge method its code expects. */
  function OnDeviceDiscovered(screen: Screen, known: seq<string>, endpointId: string, requestSucceeded: bool)
    : (r: Discovery)
    ensures r.requested <==> endpointId !in known
    ensures r.screen.(connectedDevices := screen.connectedDevices) == screen
    ensures r.screen.connectedDevices ==
      if r.requested && requestSucceeded then screen.connectedDevices + [endpointId] else screen.connectedDevices
  {
    if endpointId !in known then
      Discovery(
        if requestSucceeded then screen.(connectedDevices := screen.connectedDevices + [endpointId]) else screen,
        true)
    else
      Discovery(screen, false)
  }

  /** The reachable way to a duplicate: the native module reports a peer
      connected on every connection initiation, and the screen never drops an
      id on disconnect, so a peer that reconnects is listed twice. */
  lemma ReconnectListedTwice(screen: Screen, endpointId: string)
    ensures var twice := OnDeviceConnected(OnDeviceConnected(screen, endpointId), endpointId);
            multiset(twice.connectedDevices)[endpointId] == multiset(screen.connectedDevices)[endpointId] + 2
  {
  }

  /** As written, the discovery listener also duplicates: a peer reported
      connected and then discovered (checked against the list captured at
      mount, which is empty) sits in the list twice. Nothing in the native
      module emits the discovery event, so this path is latent. */
  lemma DuplicateEntry(screen: Screen, endpointId: string)
    ensures var connected := OnDeviceConnected(screen, endpointId);
            var found := OnDeviceDiscovered(connected, Mounted.connectedDevices, endpointId, true);
            multiset(found.screen.connectedDevices)[endpointId]
              == multiset(screen.connectedDevices)[endpointId] + 2
  {
  }
}

=== FILE: delivery.dfy ===
/** A chat line from one screen to another: the sender's broadcast hands the
    payload to its native module, the module sends the payload's UTF-8
    bytes, the peer's module turns the received bytes back into an
    `ON_MESSAGE_RECEIVED` event, and the peer's screen listener shows it. */
module Delivery {
  import opened Bytes
  import opened MessageJson
  import MessageCodec
  import Utf8
  import NearbyModule
  import opened ChatScreen

  /** Every send of a broadcast, once delivered, shows the sender's line on
      the receiving screen, provided the username and the text are
      non-empty; the receiver's device list and native state do not change. */
  lemma BroadcastReachesPeer(
    sender: Screen, message: string, delivered: seq<bool>, i: int,
    local: NearbyModule.ModuleState, remote: NearbyModule.ModuleState, fromId: string, receiver: Screen)
    requires |delivered| == |sender.connectedDevices| && 0 <= i < |delivered|
    requires sender.username != "" && message != ""
    ensures
      var send := Broadcast(sender, message, delivered).sends[i];
      var sent := NearbyModule.SendMessage(local, send.endpointId, send.message);
      var received := NearbyModule.OnPayloadReceived(remote, fromId, NearbyModule.BytesPayload(sent.commands[0].body));
      var shown := OnMessageReceived(receiver, received.events[0].message);
      && received.state == remote
      && shown.Success?
      && shown.value.connectedDevices == receiver.connectedDevices
      && shown.value.messages == receiver.messages + [ReceivedLine(DecodedMessage(sender.username, message))]
  {
  }

  /** A payload that does not decode to a record makes the receiving
      screen's listener throw, so no screen update happens; the peer's native
      module forwards it without touching its endpoint set. */
  lemma MalformedPayloadThrows(remote: NearbyModule.ModuleState, fromId: string, body: seq<byte>, receiver: Screen)
    requires MessageCodec.DecodeBase64(Utf8.Decode(body)).Failure?
    ensures
      var received := NearbyModule.OnPayloadReceived(remote, fromId, NearbyModule.BytesPayload(body));
      && received.state == remote
      && |received.events| == 1
      && OnMessageReceived(receiver, received.events[0].message).Failure?
  {
  }
}

=== FILE: message_codec.dfy ===
/** `encodeBase64` and `decodeBase64` of app/chat.tsx: a chat record becomes
    JSON text, the text becomes UTF-8 bytes, the bytes become base64. */
module MessageCodec {
  import opened Wrappers
  import opened MessageJson
  import Utf8
  import Base64

  function EncodeBase64(m: DecodedMessage): (r: string)
    ensures |r| % 4 == 0
  {
    Base64.Encode(Utf8.Encode(Stringify(m)))
  }

  /** Fails where the source throws: on text outside the base64 alphabet, or
      on bytes that are not the JSON text of a record. */
  function DecodeBase64(s: string): (r: Result<DecodedMessage>)
    ensures r.Success? ==> |s| % 4 == 0
  {
    var bytes :- Base64.Decode(s);
    Parse(Utf8.Decode(bytes))
  }

  /** Every record survives the trip through the wire format unchanged. */
  lemma DecodeEncode(m: DecodedMessage)
    ensures DecodeBase64(EncodeBase64(m)) == Success(m)
  {
    var json := Stringify(m);
    Base64.DecodeEncode(Utf8.Encode(json));
    Utf8.DecodeEncode(json);
    ParseStringify(m);
  }

  /** Distinct records never share a payload. */
  lemma EncodeInjective(m1: DecodedMessage, m2: DecodedMessage)
    requires EncodeBase64(m1) == EncodeBase64(m2)
    ensures m1 == m2
  {
    DecodeEncode(m1);
    DecodeEncode(m2);
  }
}

=== FILE: message_json.dfy ===
/** The JSON text of a chat record: what `JSON.stringify({username, text})`
    produces (section 25.5.2 of ECMA-262, QuoteJSONString) and the part of
    `JSON.parse` that reads it back. */
module MessageJson {
  import opened Wrappers

  /** The record a chat line travels as (`DecodedMessage` in app/chat.tsx). */
  datatype DecodedMessage = DecodedMessage(username: string, text: string)

  /** A parsed value and the input left after it. */
  datatype Parsed<+T> = Parsed(value: T, rest: string)

  const QUOTE: char := '"'
  const BACKSLASH: char := '\\'

  /** The object text up to the first value, in the key order of the literal
      `{ username, text: message }`. */
  const OPEN: string := "{\"username\":"
  const MIDDLE: string := ",\"text\":"
  const CLOSE: string := "}"

  function HexDigit(v: int): (c: char)
    requires 0 <= v < 16
    ensures HexValue(c) == Some(v)
  {
    if v < 10 then ('0' as int + v) as char else ('a' as int + (v - 10)) as char
  }

  /** A hexadecimal digit of either case. */
  function HexValue(c: char): (r: Option<int>)
    ensures r.Some? ==> 0 <= r.value < 16
  {
    if '0' <= c <= '9' then Some(c as int - '0' as int)
    else if 'a' <= c <= 'f' then Some(c as int - 'a' as int + 10)
    else if 'A' <= c <= 'F' then Some(c as int - 'A' as int + 10)
    else None
  }

  /** How one character appears inside a JSON string: the two-character
      escapes for quote, backslash, backspace, tab, line feed, form feed and
      carriage return; `\u00xx` with lower-case hex for the other control
      characters; every other character as itself. */
  function EscapeChar(c: char): (r: string)
    ensures 1 <= |r|
    ensures r[0] != QUOTE
    ensures (|r| == 1) <==> (c != QUOTE && c != BACKSLASH && c as int >= 0x20)
  {
    var cp := c as int;
    if c == QUOTE then [BACKSLASH, QUOTE]
    else if c == BACKSLASH then [BACKSLASH, BACKSLASH]
    else if cp == 0x08 then [BACKSLASH, 'b']
    else if cp == 0x09 then [BACKSLASH, 't']
    else if cp == 0x0A then [BACKSLASH, 'n']
    else if cp == 0x0C then [BACKSLASH, 'f']
    else if cp == 0x0D then [BACKSLASH, 'r']
    else if cp < 0x20 then [BACKSLASH, 'u', '0', '0', HexDigit(cp / 16), HexDigit(cp % 16)]
    else [c]
  }

  function EscapeBody(s: string): (r: string)
    ensures |s| <= |r|
  {
    if |s| == 0 then [] else EscapeChar(s[0]) + EscapeBody(s[1..])
  }

  /** A string literal: the escaped characters between double quotes. */
  function Quote(s: string): (r: string)
    ensures |r| >= 2 && r[0] == QUOTE && r[|r| - 1] == QUOTE
  {
    [QUOTE] + EscapeBody(s) + [QUOTE]
  }

  function Stringify(m: DecodedMessage): (r: string)
    ensures OPEN <= r
  {
    OPEN + (Quote(m.username) + (MIDDLE + (Quote(m.text) + CLOSE)))
  }

  /** Reads the escape sequence that follows a backslash: the character it
      denotes and how many characters it spans. A `\u` escape naming a
      surrogate code unit is refused, as no scalar value corresponds to it. */
  function ParseEscape(s: string): (r: Result<(char, nat)>)
    ensures r.Success? ==> 1 <= r.value.1 <= |s|
  {
    if |s| == 0 then Failure("unterminated escape")
    else if s[0] == QUOTE || s[0] == BACKSLASH || s[0] == '/' then Success((s[0], 1))
    else if s[0] == 'b' then Success((8 as char, 1))
    else if s[0] == 't' then Success((9 as char, 1))
    else if s[0] == 'n' then Success((10 as char, 1))
    else if s[0] == 'f' then Success((12 as char, 1))
    else if s[0] == 'r' then Success((13 as char, 1))
    else if s[0] == 'u' && |s| >= 5 then
      match (HexValue(s[1]), HexValue(s[2]), HexValue(s[3]), HexValue(s[4]))
      case (Some(h0), Some(h1), Some(h2), Some(h3)) =>
        var v := h0 * 4096 + h1 * 256 + h2 * 16 + h3;
        if 0xD800 <= v < 0xE000 then Failure("lone surrogate escape")
        else Success((v as char, 5))
      case _ => Failure("bad unicode escape")
    else Failure("bad escape")
  }

  /** Reads the characters of a string literal up to and including its
      closing quote. Raw control characters are refused. */
  function ParseChars(s: string): (r: Result<Parsed<string>>)
    ensures r.Success? ==> |r.value.rest| < |s| && r.value.rest == s[|s| - |r.value.rest|..]
    decreases |s|
  {
    if |s| == 0 then Failure("unterminated string")
    else if s[0] == QUOTE then Success(Parsed([], s[1..]))
    else if s[0] == BACKSLASH then
      var e :- ParseEscape(s[1..]);
      var tail :- ParseChars(s[1 + e.1..]);
      Success(Parsed([e.0] + tail.value, tail.rest))
    else if (s[0] as int) < 0x20 then Failure("control character in string")
    else
      var tail :- ParseChars(s[1..]);
      Success(Parsed([s[0]] + tail.value, tail.rest))
  }

  function ParseString(s: string): (r: Result<Parsed<string>>)
    ensures r.Success? ==> |r.value.rest| < |s| && r.value.rest == s[|s| - |r.value.rest|..]
  {
    if |s| > 0 && s[0] == QUOTE then ParseChars(s[1..]) else Failure("expected a string")
  }

  /** Reads back an object of exactly the shape `Stringify` writes. */
  function Parse(j: string): (r: Result<DecodedMessage>)
    ensures r.Success? ==> OPEN <= j && j[|j| - 1] == '}'
  {
    if !(OPEN <= j) then Failure("expected {\"username\":")
    else
      var u :- ParseString(j[|OPEN|..]);
      if !(MIDDLE <= u.rest) then Failure("expected ,\"text\":")
      else
        var t :- ParseString(u.rest[|MIDDLE|..]);
        if t.rest != CLOSE then Failure("expected }")
        else Success(DecodedMessage(u.value, t.value))
  }

  /** One escaped character is read back as itself. */
  lemma ParseEscapedChar(c: char, rest: string)
    requires c == QUOTE || c == BACKSLASH || (c as int) < 0x20
    ensures ParseEscape(EscapeChar(c)[1..] + rest) == Success((c, |EscapeChar(c)| - 1))
  {
    var cp := c as int;
    var e := EscapeChar(c)[1..] + rest;
    if cp < 0x20 && cp != 8 && cp != 9 && cp != 10 && cp != 12 && cp != 13 {
      assert e[0] == 'u' && e[1] == '0' && e[2] == '0';
      assert e[3] == HexDigit(cp / 16) && e[4] == HexDigit(cp % 16);
      assert 0 * 4096 + 0 * 256 + (cp / 16) * 16 + cp % 16 == cp;
    }
  }

  /** One step of reading an escaped body: the escape of its first
      character is consumed, leaving the escape of the rest. */
  lemma ParseCharsStep(c: char, tail: string)
    requires ParseChars(tail).Success?
    ensures ParseChars(EscapeChar(c) + tail)
      == Success(Parsed([c] + ParseChars(tail).value.value, ParseChars(tail).value.rest))
  {
    if |EscapeChar(c)| == 1 {
      ParseCharsPlain(c, tail);
    } else {
      ParseCharsEscaped(c, tail);
    }
  }

  /** A character written as itself is read back as itself. */
  lemma ParseCharsPlain(c: char, tail: string)
    requires |EscapeChar(c)| == 1
    ensures ParseChars(EscapeChar(c) + tail)
      == (var t :- ParseChars(tail); Success(Parsed([c] + t.value, t.rest)))
  {
    var x := EscapeChar(c) + tail;
    assert EscapeChar(c) == [c];
    assert x[0] == c && x[1..] == tail;
  }

  /** A character written as an escape sequence is read back as itself. */
  lemma ParseCharsEscaped(c: char, tail: string)
    requires |EscapeChar(c)| > 1
    ensures ParseChars(EscapeChar(c) + tail)
      == (var t :- ParseChars(tail); Success(Parsed([c] + t.value, t.rest)))
  {
    var e := EscapeChar(c);
    var x := e + tail;
    assert x[0] == BACKSLASH;
    assert x[1..] == e[1..] + tail;
    ParseEscapedChar(c, tail);
    assert x[1 + (|e| - 1)..] == tail;
  }

  /** The escape of a non-empty string, followed by anything, starts with
      the escape of its first character. */
  lemma EscapeBodyCons(s: string, after: string)
    requires |s| > 0
    ensures EscapeBody(s) + after == EscapeChar(s[0]) + (EscapeBody(s[1..]) + after)
  {
    var e, b := EscapeChar(s[0]), EscapeBody(s[1..]);
    assert EscapeBody(s) == e + b;
    SeqAssoc(e, b, after);
  }

  lemma SeqAssoc(a: string, b: string, c: string)
    ensures (a + b) + c == a + (b + c)
  {
  }

  /** The characters of an escaped body are read back up to the closing
      quote, whatever follows it. */
  lemma {:induction false} ParseCharsEscapeBody(s: string, rest: string)
    ensures ParseChars(EscapeBody(s) + ([QUOTE] + rest)) == Success(Parsed(s, rest))
  {
    var closing := [QUOTE] + rest;
    if |s| == 0 {
      assert EscapeBody(s) + closing == closing;
      assert closing[1..] == rest;
    } else {
      var tail := EscapeBody(s[1..]) + closing;
      EscapeBodyCons(s, closing);
      ParseCharsEscapeBody(s[1..], rest);
      ParseCharsStep(s[0], tail);
      assert [s[0]] + s[1..] == s;
    }
  }

  /** A string literal is read back as the string it quotes. */
  lemma ParseStringQuote(s: string, rest: string)
    ensures ParseString(Quote(s) + rest) == Success(Parsed(s, rest))
  {
    var x := Quote(s) + rest;
    assert x[1..] == EscapeBody(s) + ([QUOTE] + rest);
    ParseCharsEscapeBody(s, rest);
  }

  /** `Parse` accepts an object whose two string values each parse. */
  lemma ParseObject(x: string, y: string, m: DecodedMessage)
    requires ParseString(x) == Success(Parsed(m.username, MIDDLE + y))
    requires ParseString(y) == Success(Parsed(m.text, CLOSE))
    ensures Parse(OPEN + x) == Success(m)
  {
    var j := OPEN + x;
    assert OPEN <= j && j[|OPEN|..] == x;
    var afterU := MIDDLE + y;
    assert MIDDLE <= afterU && afterU[|MIDDLE|..] == y;
  }

  /** `JSON.parse(JSON.stringify(m))` gives back `m`. */
  lemma ParseStringify(m: DecodedMessage)
    ensures Parse(Stringify(m)) == Success(m)
  {
    var qu, qt := Quote(m.username), Quote(m.text);
    ParseStringQuote(m.username, MIDDLE + (qt + CLOSE));
    ParseStringQuote(m.text, CLOSE);
    ParseObject(qu + (MIDDLE + (qt + CLOSE)), qt + CLOSE, m);
  }
}

=== FILE: nearby_module.dfy ===
/** The Android native module `NearbyConnectionModule`: two guard flags, the
    set of connected endpoint ids, and the reactions to bridge calls and to
    the Nearby Connections SDK's callbacks. Each reaction is one atomic step
    that returns the new state, the SDK commands it issues, the events it
    sends to JavaScript and how it settles the caller's promise. The SDK's
    asynchronous completions (its success and failure listeners) are inputs
    of their own, so their outcome is chosen by the environment. */
module NearbyModule {
  import opened Wrappers
  import opened Bytes
  import Utf8

  const ON_DEVICE_CONNECTED: string := "ON_DEVICE_CONNECTED"
  const ON_MESSAGE_RECEIVED: string := "ON_MESSAGE_RECEIVED"
  const ADVERTISING_ERROR: string := "ADVERTISING_ERROR"
  const DISCOVERY_ERROR: string := "DISCOVERY_ERROR"
  const SEND_MESSAGE_ERROR: string := "SEND_MESSAGE_ERROR"
  /** `ConnectionsStatusCodes.STATUS_OK`. */
  const STATUS_OK: int := 0
  /** The local name every outgoing connection request carries. */
  const REQUESTER_NAME: string := "CurrentUser"

  datatype Strategy = P2PCluster | P2PStar | P2PPointToPoint

  /** The strategy both advertising and discovery are configured with. */
  const CONNECTION_STRATEGY: Strategy := P2PCluster

  datatype ModuleState = ModuleState(
    isAdvertising: bool,
    isDiscovering: bool,
    connectedEndpoints: set<string>)

  const Initial: ModuleState := ModuleState(false, false, {})

  /** Calls into the Nearby Connections client. */
  datatype Command =
    | StopAdvertisingCmd
    | StartAdvertisingCmd(localName: string, serviceId: string, strategy: Strategy)
    | StopDiscoveryCmd
    | StartDiscoveryCmd(serviceId: string, strategy: Strategy)
    | AcceptConnectionCmd(endpointId: string)
    | RequestConnectionCmd(localName: string, endpointId: string)
    | SendPayloadCmd(endpointId: string, body: seq<byte>)

  /** Events sent to the JavaScript side. */
  datatype Event =
    | DeviceConnected(endpointId: string, deviceName: string)
    | MessageReceived(endpointId: string, message: string)
  {
    function Name(): string {
      match this
      case DeviceConnected(_, _) => ON_DEVICE_CONNECTED
      case MessageReceived(_, _) => ON_MESSAGE_RECEIVED
    }
  }

  /** What happened to the caller's promise in a step. */
  datatype Settlement = Unsettled | Resolved(value: string) | Rejected(code: string, message: string)

  /** Only byte payloads have a body (`Payload.asBytes()` is null otherwise). */
  datatype Payload = BytesPayload(body: seq<byte>) | FilePayload | StreamPayload

  datatype Step = Step(state: ModuleState, commands: seq<Command>, events: seq<Event>, promise: Settlement)

  /** A step that changes nothing and says nothing. */
  function Quiet(s: ModuleState): Step {
    Step(s, [], [], Unsettled)
  }

  // ---- bridge methods ----------------------------------------------------

  /** Refused while the flag is up; otherwise stops any previous
      advertisement and starts a new one, leaving the promise to the SDK's
      completion. The flag itself is not touched here. */
  function StartAdvertising(s: ModuleState, serviceId: string, username: string): (r: Step)
    ensures r.state == s && r.events == []
    ensures s.isAdvertising <==> r.promise.Rejected?
    ensures s.isAdvertising ==> r.commands == [] && r.promise.code == ADVERTISING_ERROR
    ensures !s.isAdvertising ==>
      r.promise == Unsettled
      && r.commands == [StopAdvertisingCmd, StartAdvertisingCmd(username, serviceId, CONNECTION_STRATEGY)]
  {
    if s.isAdvertising then
      Step(s, [], [], Rejected(ADVERTISING_ERROR, "Advertising is already started"))
    else
      Step(s, [StopAdvertisingCmd, StartAdvertisingCmd(username, serviceId, CONNECTION_STRATEGY)], [], Unsettled)
  }

  /** The success listener of the advertising task. */
  function OnAdvertisingSuccess(s: ModuleState): (r: Step)
    ensures r.state.isAdvertising
    ensures r.state.isDiscovering == s.isDiscovering && r.state.connectedEndpoints == s.connectedEndpoints
    ensures r.commands == [] && r.events == [] && r.promise.Resolved?
  {
    Step(s.(isAdvertising := true), [], [], Resolved("Advertising started"))
  }

  /** The failure listener of the advertising task: the flag stays as it was. */
  function OnAdvertisingFailure(s: ModuleState, reason: Option<string>): (r: Step)
    ensures r.state == s && r.commands == [] && r.events == []
    ensures r.promise == Rejected(ADVERTISING_ERROR, reason.GetOr("Unknown error"))
  {
    Step(s, [], [], Rejected(ADVERTISING_ERROR, reason.GetOr("Unknown error")))
  }

  function StartDiscovery(s: ModuleState, serviceId: string): (r: Step)
    ensures r.state == s && r.events == []
    ensures s.isDiscovering <==> r.promise.Rejected?
    ensures s.isDiscovering ==> r.commands == [] && r.promise.code == DISCOVERY_ERROR
    ensures !s.isDiscovering ==>
      r.promise == Unsettled
      && r.commands == [StopDiscoveryCmd, StartDiscoveryCmd(serviceId, CONNECTION_STRATEGY)]
  {
    if s.isDiscovering then
      Step(s, [], [], Rejected(DISCOVERY_ERROR, "Discovery is already started"))
    else
      Step(s, [StopDiscoveryCmd, StartDiscoveryCmd(serviceId, CONNECTION_STRATEGY)], [], Unsettled)
  }

  function OnDiscoverySuccess(s: ModuleState): (r: Step)
    ensures r.state.isDiscovering
    ensures r.state.isAdvertising == s.isAdvertising && r.state.connectedEndpoints == s.connectedEndpoints
    ensures r.commands == [] && r.events == [] && r.promise.Resolved?
  {
    Step(s.(isDiscovering := true), [], [], Resolved("Discovery started"))
  }

  function OnDiscoveryFailure(s: ModuleState, reason: Option<string>): (r: Step)
    ensures r.state == s && r.commands == [] && r.events == []
    ensures r.promise == Rejected(DISCOVERY_ERROR, reason.GetOr("Unknown error"))
  {
    Step(s, [], [], Rejected(DISCOVERY_ERROR, reason.GetOr("Unknown error")))
  }

  /** Sends the message's UTF-8 bytes to one endpoint. The endpoint need not
      be in `connectedEndpoints`: the set is never consulted. */
  function SendMessage(s: ModuleState, endpointId: string, message: string): (r: Step)
    ensures r.state == s && r.events == [] && r.promise == Unsettled
    ensures |r.commands| == 1 && r.commands[0].SendPayloadCmd? && r.commands[0].endpointId == endpointId
    ensures Utf8.Decode(r.commands[0].body) == message
  {
    Utf8.DecodeEncode(message);
    Step(s, [SendPayloadCmd(endpointId, Utf8.Encode(message))], [], Unsettled)
  }

  function OnSendSuccess(s: ModuleState): (r: Step)
    ensures r.state == s && r.commands == [] && r.events == [] && r.promise.Resolved?
  {
    Step(s, [], [], Resolved("Message sent"))
  }

  function OnSendFailure(s: ModuleState, reason: Option<string>): (r: Step)
    ensures r.state == s && r.commands == [] && r.events == []
    ensures r.promise == Rejected(SEND_MESSAGE_ERROR, reason.GetOr("Message send failed"))
  {
    Step(s, [], [], Rejected(SEND_MESSAGE_ERROR, reason.GetOr("Message send failed")))
  }

  // ---- connection lifecycle callbacks -----------------------------------

  /** Accepts every request and reports the peer as connected at once,
      before any connection result has arrived; the endpoint set is left
      alone. */
  function OnConnectionInitiated(s: ModuleState, endpointId: string, endpointName: string): (r: Step)
    ensures r.state == s && r.promise == Unsettled
    ensures r.commands == [AcceptConnectionCmd(endpointId)]
    ensures |r.events| == 1 && r.events[0].Name() == ON_DEVICE_CONNECTED
    ensures r.events[0].endpointId == endpointId && r.events[0].deviceName == endpointName
  {
    Step(s, [AcceptConnectionCmd(endpointId)], [DeviceConnected(endpointId, endpointName)], Unsettled)
  }

  /** Only `STATUS_OK` adds the endpoint; every other status is logged and dropped. */
  function OnConnectionResult(s: ModuleState, endpointId: string, statusCode: int): (r: Step)
    ensures r.state.isAdvertising == s.isAdvertising && r.state.isDiscovering == s.isDiscovering
    ensures endpointId in r.state.connectedEndpoints <==> statusCode == STATUS_OK || endpointId in s.connectedEndpoints
    ensures forall id :: id != endpointId ==> (id in r.state.connectedEndpoints <==> id in s.connectedEndpoints)
    ensures r.commands == [] && r.events == [] && r.promise == Unsettled
  {
    if statusCode == STATUS_OK then
      Quiet(s.(connectedEndpoints := s.connectedEndpoints + {endpointId}))
    else
      Quiet(s)
  }

  /** Removes the endpoint; a no-op when it is absent. */
  function OnDisconnected(s: ModuleState, endpointId: string): (r: Step)
    ensures r.state.isAdvertising == s.isAdvertising && r.state.isDiscovering == s.isDiscovering
    ensures endpointId !in r.state.connectedEndpoints
    ensures forall id :: id != endpointId ==> (id in r.state.connectedEndpoints <==> id in s.connectedEndpoints)
    ensures endpointId !in s.connectedEndpoints ==> r.state == s
    ensures r.commands == [] && r.events == [] && r.promise == Unsettled
  {
    Quiet(s.(connectedEndpoints := s.connectedEndpoints - {endpointId}))
  }

  // ---- discovery callbacks ----------------------------------------------

  /** Requests a connection to every endpoint found, under a fixed local name. */
  function OnEndpointFound(s: ModuleState, endpointId: string, endpointName: string): (r: Step)
    ensures r.state == s && r.events == [] && r.promise == Unsettled
    ensures r.commands == [RequestConnectionCmd(REQUESTER_NAME, endpointId)]
  {
    Step(s, [RequestConnectionCmd(REQUESTER_NAME, endpointId)], [], Unsettled)
  }

  /** Only logged. */
  function OnEndpointLost(s: ModuleState, endpointId: string): (r: Step)
    ensures r.state == s && r.commands == [] && r.events == [] && r.promise == Unsettled
  {
    Quiet(s)
  }

  // ---- payload callback -------------------------------------------------

  /** Forwards a byte payload, decoded as UTF-8, to JavaScript; payloads of
      other kinds are ignored. */
  function OnPayloadReceived(s: ModuleState, endpointId: string, payload: Payload): (r: Step)
    ensures r.state == s && r.commands == [] && r.promise == Unsettled
    ensures |r.events| == (if payload.BytesPayload? then 1 else 0)
    ensures payload.BytesPayload? ==>
      r.events[0].Name() == ON_MESSAGE_RECEIVED
      && r.events[0] == MessageReceived(endpointId, Utf8.Decode(payload.body))
  {
    match payload
    case BytesPayload(body) => Step(s, [], [MessageReceived(endpointId, Utf8.Decode(body))], Unsettled)
    case _ => Quiet(s)
  }

  // ---- traces -----------------------------------------------------------

  /** Everything that can drive the module: a bridge call, an SDK completion
      or an SDK callback. */
  datatype Input =
    | CallStartAdvertising(serviceId: string, username: string)
    | AdvertisingSucceeded
    | AdvertisingFailed(reason: Option<string>)
    | CallStartDiscovery(serviceId: string)
    | DiscoverySucceeded
    | DiscoveryFailed(reason: Option<string>)
    | CallSendMessage(endpointId: string, message: string)
    | SendSucceeded
    | SendFailed(reason: Option<string>)
    | ConnectionInitiated(endpointId: string, endpointName: string)
    | ConnectionResult(endpointId: string, statusCode: int)
    | Disconnected(endpointId: string)
    | EndpointFound(endpointId: string, endpointName: string)
    | EndpointLost(endpointId: string)
    | PayloadReceived(endpointId: string, payload: Payload)

  /** Dispatches one input. Only the two success listeners raise a flag,
      nothing lowers one, and only connection results and disconnects touch
      the endpoint set. */
  function Apply(s: ModuleState, i: Input): (r: Step)
    ensures s.isAdvertising ==> r.state.isAdvertising
    ensures s.isDiscovering ==> r.state.isDiscovering
    ensures r.state.isAdvertising != s.isAdvertising ==> i == AdvertisingSucceeded
    ensures r.state.isDiscovering != s.isDiscovering ==> i == DiscoverySucceeded
    ensures r.state.connectedEndpoints != s.connectedEndpoints ==> i.ConnectionResult? || i.Disconnected?
    ensures r.events != [] ==> i.ConnectionInitiated? || i.PayloadReceived?
  {
    match i
    case CallStartAdvertising(serviceId, username) => StartAdvertising(s, serviceId, username)
    case AdvertisingSucceeded => OnAdvertisingSuccess(s)
    case AdvertisingFailed(reason) => OnAdvertisingFailure(s, reason)
    case CallStartDiscovery(serviceId) => StartDiscovery(s, serviceId)
    case DiscoverySucceeded => OnDiscoverySuccess(s)
    case DiscoveryFailed(reason) => OnDiscoveryFailure(s, reason)
    case CallSendMessage(endpointId, message) => SendMessage(s, endpointId, message)
    case SendSucceeded => OnSendSuccess(s)
    case SendFailed(reason) => OnSendFailure(s, reason)
    case ConnectionInitiated(endpointId, endpointName) => OnConnectionInitiated(s, endpointId, endpointName)
    case ConnectionResult(endpointId, statusCode) => OnConnectionResult(s, endpointId, statusCode)
    case Disconnected(endpointId) => OnDisconnected(s, endpointId)
    case EndpointFound(endpointId, endpointName) => OnEndpointFound(s, endpointId, endpointName)
    case EndpointLost(endpointId) => OnEndpointLost(s, endpointId)
    case PayloadReceived(endpointId, payload) => OnPayloadReceived(s, endpointId, payload)
  }

  /** The state after a sequence of inputs, applied in order. */
  function Run(s: ModuleState, t: seq<Input>): ModuleState
    decreases |t|
  {
    if |t| == 0 then s else Apply(Run(s, t[..|t| - 1]), t[|t| - 1]).state
  }

  /** The advertising flag is up after a trace exactly when it was up before
      or the trace holds an advertising success; in particular it never falls. */
  lemma {:induction false} AdvertisingIff(s: ModuleState, t: seq<Input>)
    ensures Run(s, t).isAdvertising <==> s.isAdvertising || AdvertisingSucceeded in t
  {
    if |t| > 0 {
      var t' := t[..|t| - 1];
      AdvertisingIff(s, t');
      assert t == t' + [t[|t| - 1]];
    }
  }

  lemma {:induction false} DiscoveringIff(s: ModuleState, t: seq<Input>)
    ensures Run(s, t).isDiscovering <==> s.isDiscovering || DiscoverySucceeded in t
  {
    if |t| > 0 {
      var t' := t[..|t| - 1];
      DiscoveringIff(s, t');
      assert t == t' + [t[|t| - 1]];
    }
  }

  /** No disconnect of `id` at or after position `from`. */
  ghost predicate StaysUp(t: seq<Input>, id: string, from: nat) {
    forall j :: from <= j < |t| ==> t[j] != Disconnected(id)
  }

  /** The reference reading of the endpoint set: an id is connected when a
      successful connection result for it (or the initial state) is not
      followed by a disconnect of it. */
  ghost predicate ConnectedAfter(s: ModuleState, t: seq<Input>, id: string) {
    || (id in s.connectedEndpoints && StaysUp(t, id, 0))
    || exists k :: 0 <= k < |t| && t[k] == ConnectionResult(id, STATUS_OK) && StaysUp(t, id, k + 1)
  }

  lemma StaysUpSnoc(t: seq<Input>, x: Input, id: string, from: nat)
    requires from <= |t|
    ensures StaysUp(t + [x], id, from) <==> StaysUp(t, id, from) && x != Disconnected(id)
  {
    var u := t + [x];
    if StaysUp(u, id, from) {
      assert u[|t|] == x;
      forall j | from <= j < |t| ensures t[j] != Disconnected(id) {
        assert u[j] == t[j];
      }
    }
  }

  /** Appending an input that is neither a disconnect of `id` nor a
      successful result for it keeps the reference reading. */
  lemma ConnectedAfterSnocOther(s: ModuleState, t: seq<Input>, x: Input, id: string)
    requires x != Disconnected(id) && x != ConnectionResult(id, STATUS_OK)
    ensures ConnectedAfter(s, t + [x], id) <==> ConnectedAfter(s, t, id)
  {
    var u := t + [x];
    StaysUpSnoc(t, x, id, 0);
    if k :| 0 <= k < |t| && t[k] == ConnectionResult(id, STATUS_OK) && StaysUp(t, id, k + 1) {
      StaysUpSnoc(t, x, id, k + 1);
      assert u[k] == t[k];
    }
    if k :| 0 <= k < |u| && u[k] == ConnectionResult(id, STATUS_OK) && StaysUp(u, id, k + 1) {
      assert k < |t|;
      StaysUpSnoc(t, x, id, k + 1);
      assert u[k] == t[k];
    }
  }

  /** Appending a disconnect of `id` falsifies the reference reading. */
  lemma ConnectedAfterSnocDisconnect(s: ModuleState, t: seq<Input>, id: string)
    ensures !ConnectedAfter(s, t + [Disconnected(id)], id)
  {
    var u := t + [Disconnected(id)];
    StaysUpSnoc(t, Disconnected(id), id, 0);
    if k :| 0 <= k < |u| && u[k] == ConnectionResult(id, STATUS_OK) && StaysUp(u, id, k + 1) {
      assert k < |t|;
      StaysUpSnoc(t, Disconnected(id), id, k + 1);
    }
  }

  /** The endpoint set after any trace is exactly the reference reading. */
  lemma {:induction false} ConnectedIff(s: ModuleState, t: seq<Input>, id: string)
    ensures id in Run(s, t).connectedEndpoints <==> ConnectedAfter(s, t, id)
  {
    if |t| > 0 {
      var n := |t| - 1;
      var t', x := t[..n], t[n];
      assert t == t' + [x];
      ConnectedIff(s, t', id);
      if x == Disconnected(id) {
        ConnectedAfterSnocDisconnect(s, t', id);
      } else if x == ConnectionResult(id, STATUS_OK) {
        assert StaysUp(t, id, n + 1);
      } else {
        ConnectedAfterSnocOther(s, t', x, id);
      }
    }
  }

  /** Once an advertising success is in the trace, every further start
      request is refused without a command and without a state change; the
      same holds for discovery. */
  lemma GuardAfterSuccess(s: ModuleState, t: seq<Input>, serviceId: string, username: string)
    ensures AdvertisingSucceeded in t ==>
      Apply(Run(s, t), CallStartAdvertising(serviceId, username))
        == Step(Run(s, t), [], [], Rejected(ADVERTISING_ERROR, "Advertising is already started"))
    ensures DiscoverySucceeded in t ==>
      Apply(Run(s, t), CallStartDiscovery(serviceId))
        == Step(Run(s, t), [], [], Rejected(DISCOVERY_ERROR, "Discovery is already started"))
  {
    AdvertisingIff(s, t);
    DiscoveringIff(s, t);
  }

  /** The guard reads a flag that only the SDK's success listener raises, so
      a second start issued before the first one completes is not refused:
      both issue the stop-and-start commands. */
  lemma StartRaceBeforeCallback(s: ModuleState, serviceId: string, username: string)
    requires !s.isAdvertising
    ensures var first := Apply(s, CallStartAdvertising(serviceId, username));
            var second := Apply(first.state, CallStartAdvertising(serviceId, username));
            second.promise == Unsettled && second.commands == first.commands
            && StartAdvertisingCmd(username, serviceId, CONNECTION_STRATEGY) in second.commands
  {
  }
}

=== FILE: utf8.dfy ===
/** UTF-8 as used on both sides of the wire: `Buffer.from(s, 'utf-8')` and
    `String.toByteArray()` encode, `Buffer.toString('utf-8')` and `String(bytes)`
    decode, substituting U+FFFD for bytes that start no well-formed sequence.
    A Dafny `char` is a Unicode scalar value, so every string is encodable. */
module Utf8 {
  import opened Wrappers
  import opened Bytes

  /** U+FFFD REPLACEMENT CHARACTER. */
  const REPLACEMENT: char := '\U{FFFD}'

  predicate IsContinuation(b: byte) {
    0x80 <= b < 0xC0
  }

  /** The one-to-four byte encoding of a single scalar value. */
  function EncodeChar(c: char): (r: seq<byte>)
    ensures 1 <= |r| <= 4
    ensures (r[0] < 0x80) <==> (c as int < 0x80)
    ensures forall k :: 1 <= k < |r| ==> IsContinuation(r[k])
  {
    var cp := c as int;
    if cp < 0x80 then
      [cp]
    else if cp < 0x800 then
      [0xC0 + cp / 64, 0x80 + cp % 64]
    else if cp < 0x1_0000 then
      [0xE0 + cp / 4096, 0x80 + (cp / 64) % 64, 0x80 + cp % 64]
    else
      [0xF0 + cp / 262144, 0x80 + (cp / 4096) % 64, 0x80 + (cp / 64) % 64, 0x80 + cp % 64]
  }

  function Encode(s: string): (r: seq<byte>)
    ensures |s| <= |r| <= 4 * |s|
  {
    if |s| == 0 then [] else EncodeChar(s[0]) + Encode(s[1..])
  }

  /** Decodes the well-formed sequence at the head of `b`, if there is one:
      the scalar value and the number of bytes it occupies. Overlong forms,
      surrogates and values above U+10FFFF are refused. */
  function DecodeFirst(b: seq<byte>): (r: Option<(char, nat)>)
    ensures r.Some? ==> 1 <= r.value.1 <= |b| && r.value.1 <= 4
  {
    if |b| == 0 then None
    else if b[0] < 0x80 then
      Some((b[0] as char, 1))
    else if 0xC2 <= b[0] < 0xE0 && |b| >= 2 && IsContinuation(b[1]) then
      Some((((b[0] as int - 0xC0) * 64 + (b[1] as int - 0x80)) as char, 2))
    else if 0xE0 <= b[0] < 0xF0 && |b| >= 3 && IsContinuation(b[1]) && IsContinuation(b[2]) then
      var cp := (b[0] as int - 0xE0) * 4096 + (b[1] as int - 0x80) * 64 + (b[2] as int - 0x80);
      if 0x800 <= cp && !(0xD800 <= cp < 0xE000) then Some((cp as char, 3)) else None
    else if 0xF0 <= b[0] < 0xF5 && |b| >= 4
            && IsContinuation(b[1]) && IsContinuation(b[2]) && IsContinuation(b[3]) then
      var cp := (b[0] as int - 0xF0) * 262144 + (b[1] as int - 0x80) * 4096 + (b[2] as int - 0x80) * 64 + (b[3] as int - 0x80);
      if 0x1_0000 <= cp < 0x11_0000 then Some((cp as char, 4)) else None
    else None
  }

  /** Total decoding: every byte that starts no well-formed sequence becomes U+FFFD. */
  function Decode(b: seq<byte>): (r: string)
    ensures |r| <= |b|
    decreases |b|
  {
    if |b| == 0 then []
    else
      match DecodeFirst(b)
      case Some((c, n)) => [c] + Decode(b[n..])
      case None => [REPLACEMENT] + Decode(b[1..])
  }

  lemma Split3(cp: int)
    requires 0 <= cp
    ensures (cp / 4096) * 4096 + ((cp / 64) % 64) * 64 + cp % 64 == cp
  {
    var q := cp / 64;
    assert cp / 4096 == q / 64;
  }

  lemma Split4(cp: int)
    requires 0 <= cp
    ensures (cp / 262144) * 262144 + ((cp / 4096) % 64) * 4096 + ((cp / 64) % 64) * 64 + cp % 64 == cp
  {
    var q1 := cp / 64;
    var q2 := q1 / 64;
    assert cp / 4096 == q2;
    assert cp / 262144 == q2 / 64;
  }

  lemma DecodeFirstThree(c: char, rest: seq<byte>)
    requires 0x800 <= c as int < 0x1_0000
    ensures DecodeFirst(EncodeChar(c) + rest) == Some((c, 3))
  {
    var cp := c as int;
    var b := EncodeChar(c) + rest;
    assert b[0] == 0xE0 + cp / 4096 && b[1] == 0x80 + (cp / 64) % 64 && b[2] == 0x80 + cp % 64;
    Split3(cp);
  }

  lemma DecodeFirstFour(c: char, rest: seq<byte>)
    requires 0x1_0000 <= c as int
    ensures DecodeFirst(EncodeChar(c) + rest) == Some((c, 4))
  {
    var cp := c as int;
    var b := EncodeChar(c) + rest;
    assert b[0] == 0xF0 + cp / 262144 && b[1] == 0x80 + (cp / 4096) % 64;
    assert b[2] == 0x80 + (cp / 64) % 64 && b[3] == 0x80 + cp % 64;
    Split4(cp);
  }

  /** The encoding of a character is recognised as exactly that character,
      whatever bytes follow it. */
  lemma DecodeFirstEncodeChar(c: char, rest: seq<byte>)
    ensures DecodeFirst(EncodeChar(c) + rest) == Some((c, |EncodeChar(c)|))
  {
    var cp := c as int;
    if cp < 0x80 {
      assert (EncodeChar(c) + rest)[0] == cp;
    } else if cp < 0x800 {
      var b := EncodeChar(c) + rest;
      assert b[0] == 0xC0 + cp / 64 && b[1] == 0x80 + cp % 64;
    } else if cp < 0x1_0000 {
      DecodeFirstThree(c, rest);
    } else {
      DecodeFirstFour(c, rest);
    }
  }

  /** Decoding undoes encoding for every string. */
  lemma {:induction false} DecodeEncode(s: string)
    ensures Decode(Encode(s)) == s
  {
    if |s| > 0 {
      var e := EncodeChar(s[0]);
      var tail := Encode(s[1..]);
      DecodeFirstEncodeChar(s[0], tail);
      assert (e + tail)[|e|..] == tail;
      DecodeEncode(s[1..]);
    }
  }
}

=== FILE: wrappers.dfy ===
/** The two outcome types the model threads through its operations: a value
    that may be absent, and a computation that may fail with a reason. */
module Wrappers {

  /** A value that may be absent: a Kotlin nullable such as an exception's
      `message`. */
  datatype Option<+T> = None | Some(value: T) {

    /** Kotlin's `x ?: fallback`. */
    function GetOr(fallback: T): T {
      if Some? then value else fallback
    }
  }

  /** Either a value or the reason there is none. An exception the program
      throws and nobody catches is a `Failure` here; the methods below let
      `:-` pass a failure on unchanged. */
  datatype Result<+T> = Success(value: T) | Failure(error: string) {

    predicate IsFailure() {
      Failure?
    }

    function PropagateFailure<U>(): Result<U>
      requires Failure?
    {
      Failure(error)
    }

    function Extract(): T
      requires Success?
    {
      value
    }
  }
}
